=== FILE: README.md ===
# Files manager: file-metadata engine in Dafny

This project models the file-metadata engine of the files manager backend
(`controllers/FilesController.js`). It covers these handlers: upload a file or
create a folder (`postUpload`), show one record (`getShow`), list a folder page
by page (`getIndex`), publish and unpublish (`putPublish`, `putUnpublish`), and
download content (`getFile`). The model works over four abstract stores:

- the session cache, mapping `auth_<token>` keys to user ids;
- the set of existing user ids;
- the `files` collection, as a sequence in insertion order (MongoDB's natural
  order), whose records are `{id, userId, name, type, isPublic, parentId,
  localPath?}`;
- the blob directory, mapping a `localPath` to bytes.

Each handler is a pure function. It takes the stores and the request fields it
reads, and returns an `Outcome`: either a status with a payload, or a status
with the source's error message. Handlers that write also return the new
stores, wrapped in a `Step`. Things the handlers get from their environment are
parameters:

- `newId` is the id MongoDB assigns to an inserted record.
- `BlobWrite` says whether the local blob write succeeded and under which
  generated path.
- The download requester is an optional user id. The source reads it from
  `req.user`, which nothing in the repository sets.

Modules:

- `Types`: ids, file types with the accepted `type` names, records, stores,
  outcomes, and the record invariant `Valid`.
- `Session`: the `x-token` → `auth_<token>` → user id gate.
- `Records`: MongoDB filter documents, `findOne`, `find`, cursor skip/limit,
  and the `$set` of `isPublic`.
- `JsParse`: ECMAScript `parseInt(text, 10)`, used for the `page` parameter.
- `FilesController`: the handlers.
- `FilesProperties`: properties that relate several calls.
- `ListingAsWritten`: the listing handler's parent filter exactly as written (see
  Findings).

Ids are one abstract string type. The source converts between strings and
ObjectIds (`new ObjectId(id)`, `ObjectId(userId)`, `.toString()`). The model
compares ids as exact text and treats these conversions as identities (see
"Left out" for what that loses). One conversion changes behaviour in a way the
model keeps. `postUpload` stores `parentId` as the raw
request string (FilesController.js:47). `getIndex` filters by
`new ObjectId(parentId)` for every parent except `"0"` (:124). So, as written,
a folder's children never match. `ListingAsWritten` models that comparison.
`FilesController.GetIndex` compares against the stored string, which is the
behaviour the listing is evidently meant to have.

## Model

| member | source | states |
|---|---|---|
| `Types.ParseType` | controllers/FilesController.js:28 | a `type` value is accepted exactly when it is one of "folder", "file", "image"; the accepted type's name is the value given |
| `Types.TypeNameRoundTrip` | controllers/FilesController.js:10 | every record type's name is accepted and reads back as that type |
| `Session.Authenticate` | controllers/FilesController.js:16-21 | a caller is identified exactly when the `x-token` header is present and non-empty and `auth_<token>` holds a non-empty user id, which is then the caller |
| `Session.SessionKeyInjective` | controllers/FilesController.js:19 | distinct tokens use distinct `auth_` keys |
| `Session.ResolveAfterCache` | controllers/FilesController.js:19-21 | a token resolves to the user id cached under its key, and caching one token changes no other token's resolution |
| `Records.FirstMatch` | controllers/FilesController.js:99 | `findOne` returns the first record in natural order that matches every field of the filter; None exactly when nothing matches |
| `Records.FindOne` | controllers/FilesController.js:183 | a found record is in the collection and matches the filter; nothing is found exactly when no record matches |
| `Records.FindAll` | controllers/FilesController.js:122-125 | `find` returns exactly the records that match the filter, in the collection's natural order (the result is a subsequence of the collection), and no more records than the collection holds |
| `Records.FindAllCounts` | controllers/FilesController.js:122-125 | `find` returns each matching record as many times as the collection holds it, and no record that does not match |
| `Records.FindAllAppend` | controllers/FilesController.js:122-125 | after an insert, `find` returns the earlier matches in the same order, followed by the new record exactly when it matches |
| `Records.SkipLimit` | controllers/FilesController.js:126-127 | the cursor window is at most `limit` long, starts at position `skip`, holds `min(limit, n - skip)` elements when `skip <= n`, and is empty past the end |
| `Records.SetPublicById` | controllers/FilesController.js:150 | the update gives the first record with that id the requested flag; it changes only `isPublic`, only on a record with that id, and changes nothing when no record has that id |
| `Records.OwnedLookupSeesOnlyOwnRecords` | controllers/FilesController.js:99 | the owner-scoped lookup gives the same answer as looking the id up among the caller's own records alone |
| `Records.ChildrenAmongOwnRecords` | controllers/FilesController.js:122-125 | the listing filter gives the same answer as filtering the caller's own records alone |
| `Records.SetPublicKeepsMatches` | controllers/FilesController.js:150 | changing the flag changes no record's match against any filter on id, owner or parent |
| `JsParse.ParseIntReadsDecimal` | controllers/FilesController.js:119 | `parseInt(_, 10)` reads back the decimal text of any integer, signed or not, after any leading white space and before any non-digit text |
| `JsParse.ParseIntReadsDigits` | controllers/FilesController.js:119 | `parseInt(_, 10)` reads any non-empty digit string, leading zeros included, after any white space and an optional "+" or "-", stopping at the first non-digit; "-" negates |
| `JsParse.ParseIntNaN` | controllers/FilesController.js:119 | `parseInt(_, 10)` is NaN exactly when no digit follows the leading white space and optional sign |
| `FilesController.SaveFileLocally` | controllers/FilesController.js:69-87 | a blob write to a non-empty path stores the content under that path, replacing whatever it held, keeps every other blob, and returns the path; a failed write, or one to the empty path (which the file system refuses and the handler's `!localPath` would reject), returns no path and leaves the blobs unchanged |
| `FilesController.PostUpload` | controllers/FilesController.js:14-61 | the upload succeeds exactly when the caller is authenticated, exists, passes every rule, and, for a non-folder, the blob write succeeds under a non-empty path (otherwise 500 "Failed to save file", :40). On success it answers 201 and appends exactly one record: caller as owner, the given id, name and type, parent defaulting to "0", visibility defaulting to false, and a blob path exactly for non-folders. Sessions and users never change; a failure changes nothing |
| `FilesController.GetShow` | controllers/FilesController.js:90-102 | 401 exactly without a caller. Otherwise the answer is 200 with a record of that id owned by the caller, when one exists, and 404 "Not found" otherwise |
| `FilesProperties.PageNumberReadsDecimal` | controllers/FilesController.js:119 | `parseInt(page, 10) || 0` is the value of the digit run the `page` text starts with, after any JavaScript white space and an optional "+" or "-", up to the first non-digit; leading zeros included |
| `FilesController.ListPage` | controllers/FilesController.js:119-130 | a page succeeds exactly when the page number is not negative (a negative one is a 500); it holds the matches at positions `page*20` onward, in order, `min(20, max(0, n - page*20))` of them |
| `FilesController.GetIndex` | controllers/FilesController.js:110-130 | 401 exactly without a caller; every listed record is in the store, is the caller's, and has the requested parent ("0" when absent or empty). With a caller, the answer is a 200 exactly when the page is not negative, and it is the window of the caller's matches under that parent that starts at `page*20`: `min(20, max(0, n - page*20))` records, in natural order |
| `FilesController.SetVisibility` | controllers/FilesController.js:146-151 | 401 exactly without a caller; with a caller, it succeeds exactly when the caller owns a record with that id. A success answers with a stored record of the caller whose flag is now the requested one, and the store holds a record with that id whose flag is now the requested one. Only that flag changes, only on records with that id; failures change nothing; other stores are untouched |
| `FilesController.PutPublish` | controllers/FilesController.js:138-156 | with a caller, publish succeeds exactly when the caller owns a record with that id; a success answers with the record of that id marked public; a failure changes nothing |
| `FilesController.PutUnpublish` | controllers/FilesController.js:159-177 | with a caller, unpublish succeeds exactly when the caller owns a record with that id; a success answers with the record of that id marked private; a failure changes nothing |
| `FilesController.GetFile` | controllers/FilesController.js:180-198 | a download succeeds only with the blob bytes of a readable non-folder record with that id and a non-empty path (an empty path is falsy and answers 404, :192). Every failure is one of 404 "File not found", 400 "A folder doesn't have content" or 500. A missing id is 404 |
| `FilesProperties.UnauthenticatedRejected` | controllers/FilesController.js:16-21 | without a resolvable token, upload, show, list, publish and unpublish all answer 401 and change no store |
| `FilesProperties.UploadUnknownUserRejected` | controllers/FilesController.js:23-24 | an upload whose session names no existing user answers 401 and changes nothing |
| `FilesProperties.UploadValidationOrder` | controllers/FilesController.js:26-40 | upload rules run in a fixed order: name, type, data, parent exists, parent is a folder, blob write. The first failing rule decides the error, and the stores stay unchanged |
| `FilesProperties.UploadPreservesValid` | controllers/FilesController.js:37-60 | with a fresh store-assigned id, an upload keeps every record well formed: distinct ids, existing owner, parent is root or an existing folder, a blob path exactly for non-folders, and every path held in the blobs |
| `FilesProperties.SetVisibilityPreservesValid` | controllers/FilesController.js:150 | publish and unpublish keep every record well formed |
| `FilesProperties.UploadRoundTrip` | controllers/FilesController.js:37-61 | after an upload the caller can show the new record, and it is among the caller's children of its parent. The owner downloads a file's content unchanged, and anyone can when it was uploaded public. A folder download is 400 |
| `FilesProperties.UploadKeepsEarlierAnswers` | controllers/FilesController.js:37-61 | in a valid store, an upload with a fresh id and a fresh blob path leaves show and download answers for every other id unchanged |
| `FilesProperties.AppendKeepsShow` | controllers/FilesController.js:99 | inserting a record with another id changes no show answer |
| `FilesProperties.AppendKeepsDownload` | controllers/FilesController.js:183-198 | in a valid store, inserting a record with another id while keeping every stored blob changes no download answer |
| `FilesProperties.UploadKeepsOtherListings` | controllers/FilesController.js:122-125 | an upload changes no listing the new record does not belong to: other callers' listings and listings of other parents answer as before |
| `FilesProperties.ForeignRecordLooksMissing` | controllers/FilesController.js:99-100 | when the only records with that id belong to someone else, show, publish and unpublish answer 404 "Not found" and change nothing, as for a missing id |
| `FilesProperties.OtherUsersRecordsInvisible` | controllers/FilesController.js:147-148 | two stores that agree on the caller's own records give identical show, publish, unpublish and listing answers |
| `FilesProperties.SetVisibilityIdempotent` | controllers/FilesController.js:147-151 | setting the same visibility twice gives the same stores and the same answer as setting it once |
| `FilesProperties.PublishIdempotent` | controllers/FilesController.js:150-151 | publishing twice equals publishing once; unpublishing twice equals unpublishing once |
| `FilesProperties.SetVisibilityStoresAnswer` | controllers/FilesController.js:150-151 | with distinct ids, the answered record is what the store now holds under that id, and it differs from the previous record only in its flag |
| `FilesProperties.DownloadAccessOrder` | controllers/FilesController.js:183-192 | download checks run in order: the id exists, then public or owner, then not a folder, then a non-empty path exists. A private record the requester does not own gives the same 404 "File not found" as a missing id |
| `FilesProperties.DownloadReadsBlob` | controllers/FilesController.js:192-198 | in a well-formed store, a readable file or image downloads as exactly the bytes of its blob |
| `FilesProperties.ListingDefaults` | controllers/FilesController.js:118-119 | an absent or empty parent lists the top level, and an absent or non-numeric page gives the first 20 matches |
| `FilesProperties.SecondPageOfTwentyFive` | controllers/FilesController.js:119-127 | with 25 matching records, page "1" lists exactly the last 5 |
| `ListingAsWritten.FindChildrenAsWritten` | controllers/FilesController.js:122-125 | as written, the listing matches a record exactly when it is the caller's and its stored string parent equals the queried value, which is an ObjectId except for "0" |
| `ListingAsWritten.GetIndexAsWritten` | controllers/FilesController.js:110-130 | the listing handler as written answers 401 exactly without a caller |
| `ListingAsWritten.AsWrittenNoChildren` | controllers/FilesController.js:124 | as written, the filter for a parent other than "0" matches no record in any store |
| `ListingAsWritten.AsWrittenNestedListingEmpty` | controllers/FilesController.js:124 | as written, listing any parent other than "0" answers an empty page, whatever the store holds |
| `ListingAsWritten.AsWrittenAgreesAtRoot` | controllers/FilesController.js:124 | at the top level the as-written filter and the corrected one select the same records |
| `ListingAsWritten.NestedListingCounterexample` | controllers/FilesController.js:47 | for a valid store where user "5f1d7c3e9b1e8a0012340001" owns folder "5f1d7c3e9b1e8a0012345678" holding one file (all ids well-formed ObjectId text), the as-written listing of that folder is empty while the corrected listing holds the file |

## Left out

- The authentication controller (`controllers/AuthController.js`) is not part of this model. Its login and logout are broken as written: the guard is inverted, the token is the `uuidv4` function itself, logout uses an undefined `user` and never deletes the key, and the module exports the wrong class. Sessions are therefore an abstract `auth_<token>` → user id map. Expiry (24-hour TTL) is the cache's job: an expired key is simply absent.
- User registration (`controllers/UserController.js`), the status/stats endpoints, the HTTP routes and the database/cache client wrappers are not modelled. They are dispatch, health reporting or connection lifecycle. The routes also leave `getFile` unrouted and register the publish path twice.
- Base64 decoding of `data` is not modelled. The upload's `data` is the bytes its text decodes to, and it counts as missing when absent or empty. A non-empty base64 text that decodes to no bytes is not distinguished.
- The `Content-Type` header derived from the file name (`mime-types`) and `console` logging are left out. Download answers only with the bytes.
- Uuid generation and directory creation in `saveFileLocally` are not modelled. They are folded into the `BlobWrite` parameter: a generated path, or failure.
- `FilesController.SaveFileLocally` does not promise that the generated path is new: a write to a path that already holds a blob replaces it. The source relies on `uuidv4` for that. `FilesProperties.UploadKeepsEarlierAnswers` takes a fresh path as a hypothesis; nothing in the model enforces it.
- A failing `mkdir` in `saveFileLocally` (FilesController.js:77) is not caught there. It escapes to the upload handler's catch, which answers 500 "Internal Server Error", not "Failed to save file". The model's `WriteFailed` covers only the write caught at :80-86.
- Ids are compared as exact text. The source compares the ObjectIds the texts denote, and `new ObjectId` reads hex without regard to case. So "5F1D7C3E9B1E8A0012345678" names the same record as "5f1d7c3e9b1e8a0012345678" at :32, :99, :147, :150, :168, :171 and :183. Where the model answers 404 "Not found", 404 "File not found" or 400 "Parent not found" for such a differently-cased id, the source finds the record.
- Malformed ids are not modelled. In the source, `new ObjectId(...)` throws for text that is not a well-formed ObjectId, and the catch answers 500 "Internal Server Error". This applies to a non-`"0"` `parentId` (:32, :124), a route id (:99, :147, :150, :168, :171, :183), and the user id the session holds (:23, :99, :123, :147, :168). The model treats a malformed id as an ordinary id: a malformed route or parent id is one no record has, and a malformed user id answers 401, 404 or an empty page where the source answers 500.
- Store exceptions, and the catch blocks that turn them into 500 "Internal Server Error", are left out. There are two exceptions, because the request or the stores alone decide them: a negative page (the store refuses a negative skip) and reading a blob path that holds nothing.
- Request fields of unexpected JSON types are not modelled. A non-string `name` or `type`, and a non-boolean `isPublic` (which the source stores raw and later tests for truthiness), are out of scope: `isPublic` is a boolean defaulting to false.
- `JsParse.ParseInt` does not model JavaScript number precision: digit strings beyond 2^53 are read exactly here. Very large page numbers are also unbounded.
- Concurrency and ordering under concurrent inserts are not modelled. Each handler is one atomic step.
- `FilesProperties.UploadPreservesValid` and `FilesProperties.UploadRoundTrip` assume the store-assigned id is new (and, for the invariant, not "0"). MongoDB guarantees this for generated ObjectIds; the handler itself does not check it.
- Error answers the model keeps as the code gives them:
  - a blob path that holds nothing answers 500 "Internal Server Error" from the download handler's catch block;
  - download's not-found message is "File not found", while show's is "Not found";
  - the content record type is named "file".

## Findings

| source | as written | input that shows it | evidently intended | confidence | as-written member | corrected member |
|---|---|---|---|---|---|---|
| controllers/FilesController.js:124 | the listing filters on `parentId: new ObjectId(parentId)` for every parent but "0", while upload (line 47) stores `parentId` as the client's string, so no stored record ever matches | user "5f1d7c3e9b1e8a0012340001" owns folder "5f1d7c3e9b1e8a0012345678" and a file with `parentId` "5f1d7c3e9b1e8a0012345678"; `GET /files?parentId=5f1d7c3e9b1e8a0012345678` with that user's token answers `[]` (both ids are well-formed ObjectId text, so neither `new ObjectId` at :123-124 throws) | listing a folder returns the caller's records stored under it | high (not executed) | `ListingAsWritten.GetIndexAsWritten` (shown by `ListingAsWritten.NestedListingCounterexample`, `ListingAsWritten.AsWrittenNestedListingEmpty`) | `FilesController.GetIndex` (new records are listed under their parent: `FilesProperties.UploadRoundTrip`) |

=== FILE: files_controller.dfy ===
/** The files handlers. Each takes the stores and the request fields it reads
    and answers with an outcome; the ones that write also return the new
    stores. */
module FilesController {
  import opened Types
  import opened Session
  import opened Records
  import JsParse

  const MsgUnauthorized: string := "Unauthorized"
  const MsgMissingName: string := "Missing name"
  const MsgMissingType: string := "Missing type"
  const MsgMissingData: string := "Missing data"
  const MsgParentNotFound: string := "Parent not found"
  const MsgParentNotFolder: string := "Parent is not a folder"
  const MsgSaveFailed: string := "Failed to save file"
  const MsgNotFound: string := "Not found"
  const MsgFileNotFound: string := "File not found"
  const MsgFolderNoContent: string := "A folder doesn't have content"
  const MsgInternal: string := "Internal Server Error"

  /** The JSON body of an upload; an absent field is None. `data` stands
      for the bytes its base64 text decodes to. */
  datatype UploadRequest = UploadRequest(
    name: Option<string>,
    fileType: Option<string>,
    parentId: Option<Id>,
    isPublic: Option<bool>,
    data: Option<Bytes>)

  /** What the blob directory does with a write: it stores the bytes under a
      newly generated path, or the write fails. */
  datatype BlobWrite = Written(path: Path) | WriteFailed

  /** The write leaves content under a usable path. A write to the empty
      path fails in the file system, and the upload handler would refuse
      an empty path as falsy anyway. */
  predicate Stores(write: BlobWrite) {
    write.Written? && write.path != ""
  }

  /** Result of saving upload content: the path on success, and the blobs. */
  datatype Saved = Saved(path: Option<Path>, blobs: map<Path, Bytes>)

  /** Upload content is present: the field is given and not empty. */
  predicate HasData(data: Option<Bytes>) {
    data.Some? && |data.value| > 0
  }

  /** The record type an upload asks for, when its `type` is accepted. */
  function RequestedType(req: UploadRequest): Option<FileType> {
    if req.fileType.Some? then ParseType(req.fileType.value) else None
  }

  /** The upload's parent, "0" when the field is absent. */
  function UploadParent(req: UploadRequest): Id {
    match req.parentId
    case None => Root
    case Some(p) => p
  }

  function UploadIsPublic(req: UploadRequest): bool {
    match req.isPublic
    case None => false
    case Some(b) => b
  }

  /** Writes upload content to the blob directory. */
  function SaveFileLocally(blobs: map<Path, Bytes>, data: Bytes, write: BlobWrite): (r: Saved)
    ensures r.path.Some? <==> Stores(write)
    ensures r.path.Some? ==> r.path.value != ""
    ensures r.path.Some? ==> r.path.value in r.blobs && r.blobs[r.path.value] == data
    ensures r.path.Some? ==> r.blobs.Keys == blobs.Keys + {r.path.value}
    ensures r.path.Some? ==> forall p :: p in blobs && p != r.path.value ==> r.blobs[p] == blobs[p]
    ensures r.path.None? ==> r.blobs == blobs
  {
    match write
    case WriteFailed => Saved(None, blobs)
    case Written(p) => if p == "" then Saved(None, blobs) else Saved(Some(p), blobs[p := data])
  }

  /** Every upload rule passes for this caller: a name, an accepted type,
      content unless a folder, and a parent that is the root or an existing
      folder. */
  predicate UploadAccepted(st: Store, userId: Id, req: UploadRequest) {
    && userId in st.users
    && Truthy(req.name)
    && RequestedType(req).Some?
    && (RequestedType(req).value != Folder ==> HasData(req.data))
    && (UploadParent(req) == Root || FolderFound(st.files, UploadParent(req)))
  }

  /** The parent lookup of an upload finds a record, and it is a folder. */
  predicate FolderFound(files: seq<FileRecord>, id: Id) {
    FindOne(files, ById(id)).Some? && FindOne(files, ById(id)).value.fileType == Folder
  }

  /** POST /files: create a folder, or save content and create a file or
      image record. `newId` is the id the store assigns to the inserted
      record and `write` is what the blob directory does with the content. */
  function PostUpload(st: Store, token: Option<string>, req: UploadRequest, newId: Id, write: BlobWrite)
    : (r: Step<FileRecord>)
    ensures r.store.sessions == st.sessions && r.store.users == st.users
    ensures r.outcome.Fail? ==> r.store == st
    ensures r.outcome.Ok? <==>
      && Authenticate(st.sessions, token).Some?
      && UploadAccepted(st, Authenticate(st.sessions, token).value, req)
      && (RequestedType(req).value != Folder ==> Stores(write))
    ensures r.outcome.Ok? ==>
      var rec := r.outcome.value;
      && r.outcome.status == 201
      && r.store.files == st.files + [rec]
      && Authenticate(st.sessions, token) == Some(rec.userId)
      && rec.id == newId
      && req.name == Some(rec.name)
      && RequestedType(req) == Some(rec.fileType)
      && rec.parentId == UploadParent(req)
      && rec.isPublic == UploadIsPublic(req)
      && (rec.fileType == Folder <==> rec.localPath.None?)
      && (rec.fileType == Folder ==> r.store.blobs == st.blobs)
      && (rec.fileType != Folder ==>
            rec.localPath == Some(write.path) && r.store.blobs == st.blobs[write.path := req.data.value])
  {
    match Authenticate(st.sessions, token)
    case None => Step(Fail(401, MsgUnauthorized), st)
    case Some(userId) =>
      if userId !in st.users then Step(Fail(401, MsgUnauthorized), st)
      else if !Truthy(req.name) then Step(Fail(400, MsgMissingName), st)
      else if RequestedType(req).None? then Step(Fail(400, MsgMissingType), st)
      else
        var fileType := RequestedType(req).value;
        if fileType != Folder && !HasData(req.data) then Step(Fail(400, MsgMissingData), st)
        else
          var parentId := UploadParent(req);
          var parent := FindOne(st.files, ById(parentId));
          if parentId != Root && parent.None? then Step(Fail(400, MsgParentNotFound), st)
          else if parentId != Root && parent.value.fileType != Folder then
            Step(Fail(400, MsgParentNotFolder), st)
          else
            var doc := FileRecord(newId, userId, req.name.value, fileType, UploadIsPublic(req), parentId, None);
            if fileType == Folder then
              Step(Ok(201, doc), st.(files := st.files + [doc]))
            else
              var saved := SaveFileLocally(st.blobs, req.data.value, write);
              if !Truthy(saved.path) then Step(Fail(500, MsgSaveFailed), st)
              else
                var fileDoc := doc.(localPath := saved.path);
                Step(Ok(201, fileDoc), st.(files := st.files + [fileDoc], blobs := saved.blobs))
  }

  /** GET /files/:id: the caller's record with that id. */
  function GetShow(st: Store, token: Option<string>, id: Id): (r: Outcome<FileRecord>)
    ensures Authenticate(st.sessions, token).None? <==> r == Fail(401, MsgUnauthorized)
    ensures r.Fail? ==> r == Fail(401, MsgUnauthorized) || r == Fail(404, MsgNotFound)
    ensures r.Ok? ==> r.status == 200 && r.value in st.files && r.value.id == id
                      && Authenticate(st.sessions, token) == Some(r.value.userId)
    ensures Authenticate(st.sessions, token).Some? ==>
      (r.Ok? <==> exists f :: f in st.files && f.id == id && f.userId == Authenticate(st.sessions, token).value)
  {
    match Authenticate(st.sessions, token)
    case None => Fail(401, MsgUnauthorized)
    case Some(userId) =>
      match FindOne(st.files, ByIdAndOwner(id, userId))
      case None => Fail(404, MsgNotFound)
      case Some(f) => Ok(200, f)
  }

  /** The listing's parent: `parentId` when given and not empty, else "0". */
  function ListingParent(parentId: Option<string>): Id {
    if Truthy(parentId) then parentId.value else Root
  }

  /** `parseInt(page, 10) || 0`: NaN and an absent parameter read as 0. */
  function PageNumber(page: Option<string>): int {
    match page
    case None => 0
    case Some(s) =>
      match JsParse.ParseInt(s)
      case None => 0
      case Some(k) => k
  }

  /** How many of `count` matches remain on a page starting at `skip`:
      `min(20, max(0, count - skip))`. */
  function WindowLength(count: nat, skip: int): nat {
    if count <= skip then 0
    else if count - skip < PageSize then count - skip
    else PageSize
  }

  /** One listing page: skip `page * 20` matches and return at most 20. A
      negative skip is refused by the store, which the handler's catch turns
      into a 500. */
  function ListPage(matches: seq<FileRecord>, page: Option<string>): (r: Outcome<seq<FileRecord>>)
    ensures PageNumber(page) < 0 <==> r == Fail(500, MsgInternal)
    ensures PageNumber(page) >= 0 <==> r.Ok?
    ensures r.Ok? ==> r.status == 200 && |r.value| <= PageSize
    ensures r.Ok? ==> forall i :: 0 <= i < |r.value| ==>
      PageNumber(page) * PageSize + i < |matches| && r.value[i] == matches[PageNumber(page) * PageSize + i]
    ensures r.Ok? ==> |r.value| == WindowLength(|matches|, PageNumber(page) * PageSize)
  {
    var n := PageNumber(page);
    if n < 0 then Fail(500, MsgInternal)
    else Ok(200, SkipLimit(matches, n * PageSize, PageSize))
  }

  /** GET /files: the caller's records under one parent, a page at a time. */
  function GetIndex(st: Store, token: Option<string>, parentId: Option<string>, page: Option<string>)
    : (r: Outcome<seq<FileRecord>>)
    ensures Authenticate(st.sessions, token).None? <==> r == Fail(401, MsgUnauthorized)
    ensures r.Ok? ==> forall f :: f in r.value ==>
      && f in st.files
      && Authenticate(st.sessions, token) == Some(f.userId)
      && f.parentId == ListingParent(parentId)
    ensures Authenticate(st.sessions, token).Some? ==>
      var m := FindAll(st.files, ChildrenOf(Authenticate(st.sessions, token).value, ListingParent(parentId)));
      var skip := PageNumber(page) * PageSize;
      && (PageNumber(page) >= 0 <==> r.Ok?)
      && (PageNumber(page) < 0 <==> r == Fail(500, MsgInternal))
      && (r.Ok? ==> |r.value| == WindowLength(|m|, skip))
      && (r.Ok? ==> forall i :: 0 <= i < |r.value| ==> skip + i < |m| && r.value[i] == m[skip + i])
  {
    match Authenticate(st.sessions, token)
    case None => Fail(401, MsgUnauthorized)
    case Some(userId) =>
      var m := FindAll(st.files, ChildrenOf(userId, ListingParent(parentId)));
      var r := ListPage(m, page);
      assert r.Ok? ==> forall f :: f in r.value ==> f in m by {
        if r.Ok? {
          forall f | f in r.value ensures f in m {
            var i :| 0 <= i < |r.value| && r.value[i] == f;
          }
        }
      }
      r
  }

  /** The shared body of publish and unpublish: find the caller's record
      with that id, set its flag in the store, answer with the record as
      found but carrying the new flag. */
  function SetVisibility(st: Store, token: Option<string>, id: Id, flag: bool): (r: Step<FileRecord>)
    ensures r.store.sessions == st.sessions && r.store.users == st.users && r.store.blobs == st.blobs
    ensures Authenticate(st.sessions, token).None? <==> r.outcome == Fail(401, MsgUnauthorized)
    ensures r.outcome.Fail? ==> r.store == st
    ensures r.outcome.Fail? ==> r.outcome == Fail(401, MsgUnauthorized) || r.outcome == Fail(404, MsgNotFound)
    ensures r.outcome.Ok? ==>
      && r.outcome.status == 200
      && r.outcome.value.isPublic == flag
      && r.outcome.value.id == id
      && Authenticate(st.sessions, token) == Some(r.outcome.value.userId)
      && exists f :: f in st.files && r.outcome.value == f.(isPublic := flag)
    ensures |r.store.files| == |st.files|
    ensures forall i :: 0 <= i < |st.files| ==>
      r.store.files[i] == st.files[i] || (st.files[i].id == id && r.store.files[i] == st.files[i].(isPublic := flag))
    ensures Authenticate(st.sessions, token).Some? ==>
      (r.outcome.Ok? <==> exists f :: f in st.files && f.id == id && f.userId == Authenticate(st.sessions, token).value)
    ensures r.outcome.Ok? ==> exists i :: (0 <= i < |st.files| && st.files[i].id == id
                                          && r.store.files[i] == st.files[i].(isPublic := flag))
  {
    match Authenticate(st.sessions, token)
    case None => Step(Fail(401, MsgUnauthorized), st)
    case Some(userId) =>
      match FindOne(st.files, ByIdAndOwner(id, userId))
      case None => Step(Fail(404, MsgNotFound), st)
      case Some(f) =>
        var files := SetPublicById(st.files, id, flag);
        var k :| 0 <= k < |st.files| && st.files[k] == f;
        assert FirstMatch(st.files, ById(id)).Some? by {
          assert Matches(st.files[k], ById(id));
        }
        var i := FirstMatch(st.files, ById(id)).value;
        assert files[i] == st.files[i].(isPublic := flag);
        Step(Ok(200, f.(isPublic := flag)), st.(files := files))
  }

  /** PUT /files/:id/publish. */
  function PutPublish(st: Store, token: Option<string>, id: Id): (r: Step<FileRecord>)
    ensures r.outcome.Ok? ==> r.outcome.value.isPublic && r.outcome.value.id == id
    ensures r.outcome.Fail? ==> r.store == st
    ensures Authenticate(st.sessions, token).Some? ==>
      (r.outcome.Ok? <==> exists f :: f in st.files && f.id == id && f.userId == Authenticate(st.sessions, token).value)
  {
    SetVisibility(st, token, id, true)
  }

  /** PUT /files/:id/unpublish. */
  function PutUnpublish(st: Store, token: Option<string>, id: Id): (r: Step<FileRecord>)
    ensures r.outcome.Ok? ==> !r.outcome.value.isPublic && r.outcome.value.id == id
    ensures r.outcome.Fail? ==> r.store == st
    ensures Authenticate(st.sessions, token).Some? ==>
      (r.outcome.Ok? <==> exists f :: f in st.files && f.id == id && f.userId == Authenticate(st.sessions, token).value)
  {
    SetVisibility(st, token, id, false)
  }

  /** Whether a requester may see a record: it is public, or the requester
      is its owner. */
  predicate MayRead(f: FileRecord, requester: Option<Id>) {
    f.isPublic || requester == Some(f.userId)
  }

  /** GET /files/:id/data: the content of a file. `requester` is the user the
      request carries, if any. */
  function GetFile(st: Store, requester: Option<Id>, id: Id): (r: Outcome<Bytes>)
    ensures r.Ok? ==> r.status == 200
    ensures r.Ok? ==> exists f :: f in st.files && f.id == id && MayRead(f, requester)
                                  && f.fileType != Folder && Truthy(f.localPath) && f.localPath.value in st.blobs
                                  && st.blobs[f.localPath.value] == r.value
    ensures r.Fail? ==> r in {Fail(404, MsgFileNotFound), Fail(400, MsgFolderNoContent), Fail(500, MsgInternal)}
    ensures (forall f :: f in st.files ==> f.id != id) ==> r == Fail(404, MsgFileNotFound)
  {
    match FindOne(st.files, ById(id))
    case None => Fail(404, MsgFileNotFound)
    case Some(f) =>
      if !MayRead(f, requester) then Fail(404, MsgFileNotFound)
      else if f.fileType == Folder then Fail(400, MsgFolderNoContent)
      else
        if !Truthy(f.localPath) then Fail(404, MsgFileNotFound)
        else
          var p := f.localPath.value;
          // reading a path that does not exist throws, and the catch answers 500
          if p !in st.blobs then Fail(500, MsgInternal) else Ok(200, st.blobs[p])
  }
}

=== FILE: files_properties.dfy ===
/** What the files handlers promise across calls: the token gate, the
    upload validation order, the record invariant, ownership-scoped
    lookups, visibility toggling, pagination and the upload/download round
    trip. */
module FilesProperties {
  import opened Types
  import opened Session
  import opened Records
  import opened FilesController
  import JsParse

  /** Without a resolvable token every protected handler answers 401 and
      leaves the stores as they were. */
  lemma UnauthenticatedRejected(
    st: Store, token: Option<string>, req: UploadRequest, newId: Id, write: BlobWrite,
    id: Id, parentId: Option<string>, page: Option<string>)
    requires Authenticate(st.sessions, token).None?
    ensures PostUpload(st, token, req, newId, write) == Step(Fail(401, MsgUnauthorized), st)
    ensures GetShow(st, token, id) == Fail(401, MsgUnauthorized)
    ensures GetIndex(st, token, parentId, page) == Fail(401, MsgUnauthorized)
    ensures PutPublish(st, token, id) == Step(Fail(401, MsgUnauthorized), st)
    ensures PutUnpublish(st, token, id) == Step(Fail(401, MsgUnauthorized), st)
  {
  }

  /** Upload additionally answers 401 when the session names no user. */
  lemma UploadUnknownUserRejected(st: Store, token: Option<string>, req: UploadRequest, newId: Id, write: BlobWrite)
    requires Authenticate(st.sessions, token).Some?
    requires Authenticate(st.sessions, token).value !in st.users
    ensures PostUpload(st, token, req, newId, write) == Step(Fail(401, MsgUnauthorized), st)
  {
  }

  /** The upload rules are checked in a fixed order and the first one that
      fails decides the answer; no failing upload changes any store. */
  lemma UploadValidationOrder(st: Store, token: Option<string>, req: UploadRequest, newId: Id, write: BlobWrite)
    requires Authenticate(st.sessions, token).Some?
    requires Authenticate(st.sessions, token).value in st.users
    ensures var r := PostUpload(st, token, req, newId, write);
      && (!Truthy(req.name) ==> r == Step(Fail(400, MsgMissingName), st))
      && (Truthy(req.name) && RequestedType(req).None? ==> r == Step(Fail(400, MsgMissingType), st))
      && ((Truthy(req.name) && RequestedType(req).Some? && RequestedType(req).value != Folder
           && !HasData(req.data)) ==> r == Step(Fail(400, MsgMissingData), st))
    ensures var r := PostUpload(st, token, req, newId, write);
      Truthy(req.name) && RequestedType(req).Some?
      && (RequestedType(req).value != Folder ==> HasData(req.data))
      && UploadParent(req) != Root ==>
        && ((forall f :: f in st.files ==> f.id != UploadParent(req))
            ==> r == Step(Fail(400, MsgParentNotFound), st))
        && (FindOne(st.files, ById(UploadParent(req))).Some?
            && FindOne(st.files, ById(UploadParent(req))).value.fileType != Folder
            ==> r == Step(Fail(400, MsgParentNotFolder), st))
    ensures var r := PostUpload(st, token, req, newId, write);
      UploadAccepted(st, Authenticate(st.sessions, token).value, req)
      && RequestedType(req).value != Folder && !Stores(write)
      ==> r == Step(Fail(500, MsgSaveFailed), st)
  {
  }

  lemma FolderFoundIsFolder(files: seq<FileRecord>, id: Id)
    requires FolderFound(files, id)
    ensures IsFolderId(files, id)
  {
    var k := FirstMatch(files, ById(id)).value;
    assert files[k].id == id && files[k].fileType == Folder;
  }

  lemma IsFolderIdAppend(files: seq<FileRecord>, rec: FileRecord, id: Id)
    requires IsFolderId(files, id)
    ensures IsFolderId(files + [rec], id)
  {
    var k :| 0 <= k < |files| && files[k].id == id && files[k].fileType == Folder;
    assert (files + [rec])[k] == files[k];
  }

  /** A successful upload with a store-assigned id that is new and not the
      root sentinel keeps every record well formed: in particular a folder
      record has no blob and a file or image record has one. */
  lemma UploadPreservesValid(st: Store, token: Option<string>, req: UploadRequest, newId: Id, write: BlobWrite)
    requires Valid(st)
    requires newId != Root && forall f :: f in st.files ==> f.id != newId
    ensures Valid(PostUpload(st, token, req, newId, write).store)
  {
    var r := PostUpload(st, token, req, newId, write);
    if r.outcome.Ok? {
      var rec := r.outcome.value;
      var st' := r.store;
      assert st'.files == st.files + [rec];
      assert st.blobs.Keys <= st'.blobs.Keys;
      forall i | 0 <= i < |st.files|
        ensures WellFormed(st', st'.files[i])
      {
        var f := st.files[i];
        assert st'.files[i] == f;
        assert WellFormed(st, f);
        if f.parentId != Root {
          IsFolderIdAppend(st.files, rec, f.parentId);
        }
      }
      if rec.parentId != Root {
        FolderFoundIsFolder(st.files, rec.parentId);
        IsFolderIdAppend(st.files, rec, rec.parentId);
      }
      assert WellFormed(st', st'.files[|st.files|]);
      forall i, j | 0 <= i < j < |st'.files|
        ensures st'.files[i].id != st'.files[j].id
      {
        if j == |st.files| {
          assert st'.files[i] in st.files;
        }
      }
    }
  }

  /** Publishing or unpublishing keeps every record well formed. */
  lemma SetVisibilityPreservesValid(st: Store, token: Option<string>, id: Id, flag: bool)
    requires Valid(st)
    ensures Valid(SetVisibility(st, token, id, flag).store)
  {
    var st' := SetVisibility(st, token, id, flag).store;
    assert forall i :: 0 <= i < |st.files| ==>
      st'.files[i].id == st.files[i].id && st'.files[i].fileType == st.files[i].fileType;
    forall i | 0 <= i < |st.files|
      ensures WellFormed(st', st'.files[i])
    {
      var f := st.files[i];
      assert WellFormed(st, f);
      if f.parentId != Root {
        var k :| 0 <= k < |st.files| && st.files[k].id == f.parentId && st.files[k].fileType == Folder;
        assert st'.files[k].id == f.parentId && st'.files[k].fileType == Folder;
      }
    }
  }

  /** After an upload the new record is the caller's, is listed under its
      parent, and, for a file or image, its content downloads unchanged by
      the owner (and by anyone when it was uploaded public). A folder has
      no content to download. */
  lemma UploadRoundTrip(st: Store, token: Option<string>, req: UploadRequest, newId: Id, write: BlobWrite)
    requires forall f :: f in st.files ==> f.id != newId
    requires PostUpload(st, token, req, newId, write).outcome.Ok?
    ensures var r := PostUpload(st, token, req, newId, write);
      && GetShow(r.store, token, newId) == Ok(200, r.outcome.value)
      && r.outcome.value in FindAll(r.store.files, ChildrenOf(r.outcome.value.userId, UploadParent(req)))
    ensures var r := PostUpload(st, token, req, newId, write);
      RequestedType(req) != Some(Folder) ==>
        && GetFile(r.store, Authenticate(st.sessions, token), newId) == Ok(200, req.data.value)
        && (UploadIsPublic(req) ==> forall other :: GetFile(r.store, other, newId) == Ok(200, req.data.value))
    ensures var r := PostUpload(st, token, req, newId, write);
      RequestedType(req) == Some(Folder) ==>
        GetFile(r.store, Authenticate(st.sessions, token), newId) == Fail(400, MsgFolderNoContent)
  {
    var r := PostUpload(st, token, req, newId, write);
    var rec := r.outcome.value;
    FirstMatchAppend(st.files, rec, ById(newId));
    FirstMatchAppend(st.files, rec, ByIdAndOwner(newId, rec.userId));
    assert FirstMatch(st.files, ById(newId)).None?;
    assert FirstMatch(st.files, ByIdAndOwner(newId, rec.userId)).None?;
    FindAllAppend(st.files, rec, ChildrenOf(rec.userId, UploadParent(req)));
  }

  /** An upload whose content goes to a path no record uses yet leaves every
      earlier record as it was: show and download answer for it exactly as
      before. */
  lemma UploadKeepsEarlierAnswers(
    st: Store, token: Option<string>, req: UploadRequest, newId: Id, write: BlobWrite,
    caller: Option<string>, requester: Option<Id>, id: Id)
    requires Valid(st)
    requires forall f :: f in st.files ==> f.id != newId
    requires write.Written? ==> write.path !in st.blobs
    requires id != newId
    ensures var st' := PostUpload(st, token, req, newId, write).store;
      && GetShow(st', caller, id) == GetShow(st, caller, id)
      && GetFile(st', requester, id) == GetFile(st, requester, id)
  {
    var r := PostUpload(st, token, req, newId, write);
    if r.outcome.Ok? {
      var rec := r.outcome.value;
      forall p | p in st.blobs
        ensures p in r.store.blobs && r.store.blobs[p] == st.blobs[p]
      {
        if rec.fileType != Folder {
          assert p != write.path;
        }
      }
      AppendKeepsShow(st, r.store, rec, caller, id);
      AppendKeepsDownload(st, r.store, rec, requester, id);
    }
  }

  /** Appending a record with another id changes no show answer. */
  lemma AppendKeepsShow(st: Store, st': Store, rec: FileRecord, caller: Option<string>, id: Id)
    requires st'.sessions == st.sessions && st'.files == st.files + [rec]
    requires rec.id != id
    ensures GetShow(st', caller, id) == GetShow(st, caller, id)
  {
    if Authenticate(st.sessions, caller).Some? {
      FirstMatchAppend(st.files, rec, ByIdAndOwner(id, Authenticate(st.sessions, caller).value));
    }
  }

  /** Appending a record with another id, and keeping every stored blob,
      changes no download answer in a valid store. */
  lemma AppendKeepsDownload(st: Store, st': Store, rec: FileRecord, requester: Option<Id>, id: Id)
    requires Valid(st)
    requires st'.files == st.files + [rec]
    requires rec.id != id
    requires forall p :: p in st.blobs ==> p in st'.blobs && st'.blobs[p] == st.blobs[p]
    ensures GetFile(st', requester, id) == GetFile(st, requester, id)
  {
    FirstMatchAppend(st.files, rec, ById(id));
    if FindOne(st.files, ById(id)).Some? {
      assert WellFormed(st, FindOne(st.files, ById(id)).value);
    }
  }

  /** An upload changes no listing the new record does not belong to: other
      users' listings and the caller's listings of other parents. */
  lemma UploadKeepsOtherListings(
    st: Store, token: Option<string>, req: UploadRequest, newId: Id, write: BlobWrite,
    caller: Option<string>, parentId: Option<string>, page: Option<string>)
    ensures var r := PostUpload(st, token, req, newId, write);
      (r.outcome.Fail? || Authenticate(st.sessions, caller) != Some(r.outcome.value.userId)
         || ListingParent(parentId) != r.outcome.value.parentId) ==>
        GetIndex(r.store, caller, parentId, page) == GetIndex(st, caller, parentId, page)
  {
    var r := PostUpload(st, token, req, newId, write);
    if r.outcome.Ok? && Authenticate(st.sessions, caller).Some? {
      var rec := r.outcome.value;
      var q := ChildrenOf(Authenticate(st.sessions, caller).value, ListingParent(parentId));
      FindAllAppend(st.files, rec, q);
      if Authenticate(st.sessions, caller) != Some(rec.userId) || ListingParent(parentId) != rec.parentId {
        assert !Matches(rec, q);
        assert FindAll(r.store.files, q) == FindAll(st.files, q);
      }
    }
  }

  /** A record that exists but belongs to someone else gets the same answer
      as a record that does not exist, from show, publish and unpublish. */
  lemma ForeignRecordLooksMissing(st: Store, token: Option<string>, id: Id, flag: bool)
    requires Authenticate(st.sessions, token).Some?
    requires forall f :: f in st.files && f.id == id ==> f.userId != Authenticate(st.sessions, token).value
    ensures GetShow(st, token, id) == Fail(404, MsgNotFound)
    ensures SetVisibility(st, token, id, flag) == Step(Fail(404, MsgNotFound), st)
  {
  }

  /** Show, publish, unpublish and listing depend only on the caller's own
      records: two stores that agree on them answer alike, whatever other
      users own. */
  lemma OtherUsersRecordsInvisible(
    st1: Store, st2: Store, token: Option<string>, id: Id, flag: bool,
    parentId: Option<string>, page: Option<string>)
    requires st1.sessions == st2.sessions
    requires Authenticate(st1.sessions, token).Some?
    requires FindAll(st1.files, OwnedBy(Authenticate(st1.sessions, token).value))
          == FindAll(st2.files, OwnedBy(Authenticate(st1.sessions, token).value))
    ensures GetShow(st1, token, id) == GetShow(st2, token, id)
    ensures SetVisibility(st1, token, id, flag).outcome == SetVisibility(st2, token, id, flag).outcome
    ensures GetIndex(st1, token, parentId, page) == GetIndex(st2, token, parentId, page)
  {
    var u := Authenticate(st1.sessions, token).value;
    OwnedLookupSeesOnlyOwnRecords(st1.files, id, u);
    OwnedLookupSeesOnlyOwnRecords(st2.files, id, u);
    ChildrenAmongOwnRecords(st1.files, u, ListingParent(parentId));
    ChildrenAmongOwnRecords(st2.files, u, ListingParent(parentId));
  }

  /** Setting the same visibility twice gives the same stores and the same
      answer as setting it once. */
  lemma SetVisibilityIdempotent(st: Store, token: Option<string>, id: Id, flag: bool)
    ensures var once := SetVisibility(st, token, id, flag);
      SetVisibility(once.store, token, id, flag) == once
  {
    var once := SetVisibility(st, token, id, flag);
    if once.outcome.Ok? {
      var u := Authenticate(st.sessions, token).value;
      var files' := once.store.files;
      SetPublicKeepsMatches(st.files, id, flag, ByIdAndOwner(id, u));
      SetPublicKeepsMatches(st.files, id, flag, ById(id));
      var j := FirstMatch(st.files, ById(id)).value;
      assert files' == st.files[j := st.files[j].(isPublic := flag)];
      assert SetPublicById(files', id, flag) == files';
    }
  }

  lemma PublishIdempotent(st: Store, token: Option<string>, id: Id)
    ensures PutPublish(PutPublish(st, token, id).store, token, id) == PutPublish(st, token, id)
    ensures PutUnpublish(PutUnpublish(st, token, id).store, token, id) == PutUnpublish(st, token, id)
  {
    SetVisibilityIdempotent(st, token, id, true);
    SetVisibilityIdempotent(st, token, id, false);
  }

  /** With distinct ids, the record publish or unpublish answers with is the
      one the store now holds under that id, and only its flag differs from
      before. */
  lemma SetVisibilityStoresAnswer(st: Store, token: Option<string>, id: Id, flag: bool)
    requires Valid(st)
    ensures var r := SetVisibility(st, token, id, flag);
      r.outcome.Ok? ==>
        && FindOne(r.store.files, ById(id)) == Some(r.outcome.value)
        && FindOne(st.files, ById(id)) == Some(r.outcome.value.(isPublic := FindOne(st.files, ById(id)).value.isPublic))
  {
    var r := SetVisibility(st, token, id, flag);
    if r.outcome.Ok? {
      var u := Authenticate(st.sessions, token).value;
      SetPublicKeepsMatches(st.files, id, flag, ById(id));
    }
  }

  /** Download checks, in order: the id exists, the requester may read it,
      it is not a folder, it has a blob path. A private record the requester
      does not own answers exactly like a missing one. */
  lemma DownloadAccessOrder(st: Store, requester: Option<Id>, id: Id)
    ensures FindOne(st.files, ById(id)).None? ==> GetFile(st, requester, id) == Fail(404, MsgFileNotFound)
    ensures var f := FindOne(st.files, ById(id));
      f.Some? && !f.value.isPublic && requester != Some(f.value.userId)
      ==> GetFile(st, requester, id) == Fail(404, MsgFileNotFound)
    ensures var f := FindOne(st.files, ById(id));
      f.Some? && MayRead(f.value, requester) && f.value.fileType == Folder
      ==> GetFile(st, requester, id) == Fail(400, MsgFolderNoContent)
    ensures var f := FindOne(st.files, ById(id));
      f.Some? && MayRead(f.value, requester) && f.value.fileType != Folder && !Truthy(f.value.localPath)
      ==> GetFile(st, requester, id) == Fail(404, MsgFileNotFound)
  {
  }

  /** In a well-formed store every readable file or image downloads as the
      bytes of its blob; the internal-error path is never reached. */
  lemma DownloadReadsBlob(st: Store, requester: Option<Id>, id: Id)
    requires Valid(st)
    ensures var f := FindOne(st.files, ById(id));
      f.Some? && MayRead(f.value, requester) && f.value.fileType != Folder
      ==> GetFile(st, requester, id) == Ok(200, st.blobs[f.value.localPath.value])
  {
    var f := FindOne(st.files, ById(id));
    if f.Some? {
      var k := FirstMatch(st.files, ById(id)).value;
      assert WellFormed(st, st.files[k]);
    }
  }

  /** Listing arguments: an absent or empty parent lists the top level, and
      an absent or non-numeric page is the first page. */
  lemma ListingDefaults(st: Store, token: Option<string>, parentId: Option<string>, page: Option<string>)
    requires Authenticate(st.sessions, token).Some?
    requires !Truthy(parentId)
    requires page.None? || JsParse.ParseInt(page.value).None?
    ensures var own := FindAll(st.files, ChildrenOf(Authenticate(st.sessions, token).value, Root));
      GetIndex(st, token, parentId, page) == Ok(200, if |own| <= PageSize then own else own[..PageSize])
  {
    var own := FindAll(st.files, ChildrenOf(Authenticate(st.sessions, token).value, Root));
    assert PageNumber(page) == 0;
    assert ListingParent(parentId) == Root;
    assert own[0..] == own;
    assert SkipLimit(own, 0, PageSize) == if |own| <= PageSize then own else own[..PageSize];
  }

  /** Twenty-five matching records: the second page holds the last five. */
  lemma SecondPageOfTwentyFive(st: Store, token: Option<string>, parentId: Option<string>)
    requires Authenticate(st.sessions, token).Some?
    requires |FindAll(st.files, ChildrenOf(Authenticate(st.sessions, token).value, ListingParent(parentId)))| == 25
    ensures var own := FindAll(st.files, ChildrenOf(Authenticate(st.sessions, token).value, ListingParent(parentId)));
      GetIndex(st, token, parentId, Some("1")) == Ok(200, own[20..])
  {
    PageOne();
  }

  /** The page number is the signed decimal the `page` text starts with,
      after JavaScript white space and an optional sign, up to the first
      non-digit; leading zeros are read as zeros. */
  lemma PageNumberReadsDecimal(sp: string, sign: string, ds: string, rest: string)
    requires forall i :: 0 <= i < |sp| ==> JsParse.IsJsSpace(sp[i])
    requires JsParse.IsSign(sign)
    requires |ds| > 0 && JsParse.AllDigits(ds)
    requires |rest| == 0 || !JsParse.IsDigit(rest[0])
    ensures PageNumber(Some(sp + sign + ds + rest)) == JsParse.Signed(sign == "-", JsParse.DigitsValue(ds))
  {
    JsParse.ParseIntReadsDigits(sp, sign, ds, rest);
  }

  lemma PageOne()
    ensures PageNumber(Some("1")) == 1
  {
    assert JsParse.AllDigits("1");
    PageNumberReadsDecimal("", "", "1", "");
    assert "" + "" + "1" + "" == "1";
    assert JsParse.DigitsValue("1") == 1 by {
      assert "1"[..0] == "";
    }
  }
}

=== FILE: js_parse.dfy ===
/** ECMAScript `parseInt(text, 10)` (section 19.2.5 of ECMA-262), as the
    listing handler applies it to its `page` query parameter. The result is
    None where JavaScript produces NaN. */
module JsParse {
  import opened Types

  /** WhiteSpace and LineTerminator code points, which `parseInt` skips at
      the start of its input. */
  predicate IsJsSpace(c: char) {
    var n := c as int;
    || (0x09 <= n <= 0x0D) || n == 0x20 || n == 0xA0 || n == 0x1680
    || (0x2000 <= n <= 0x200A) || n == 0x2028 || n == 0x2029 || n == 0x202F
    || n == 0x205F || n == 0x3000 || n == 0xFEFF
  }

  predicate IsDigit(c: char) {
    '0' <= c <= '9'
  }

  predicate AllDigits(s: string) {
    forall i :: 0 <= i < |s| ==> IsDigit(s[i])
  }

  function DigitValue(c: char): (d: nat)
    requires IsDigit(c)
    ensures d < 10
  {
    (c as int) - ('0' as int)
  }

  function DigitChar(d: nat): (c: char)
    requires d < 10
    ensures IsDigit(c) && DigitValue(c) == d
  {
    (('0' as int) + d) as char
  }

  /** The input with its leading white space removed. */
  function TrimStart(s: string): (r: string)
    ensures |r| <= |s| && r == s[|s| - |r|..]
    ensures forall i :: 0 <= i < |s| - |r| ==> IsJsSpace(s[i])
    ensures |r| == 0 || !IsJsSpace(r[0])
  {
    if |s| > 0 && IsJsSpace(s[0]) then TrimStart(s[1..]) else s
  }

  /** The longest prefix made of decimal digits. */
  function DigitPrefix(s: string): (r: string)
    ensures |r| <= |s| && r == s[..|r|]
    ensures AllDigits(r)
    ensures |r| == |s| || !IsDigit(s[|r|])
  {
    if |s| > 0 && IsDigit(s[0]) then [s[0]] + DigitPrefix(s[1..]) else []
  }

  /** The number a digit string denotes in base ten. */
  function DigitsValue(ds: string): nat
    requires AllDigits(ds)
  {
    if |ds| == 0 then 0 else DigitsValue(ds[..|ds| - 1]) * 10 + DigitValue(ds[|ds| - 1])
  }

  /** The base-ten text of a natural number, without leading zeros. */
  function ShowNat(n: nat): (s: string)
    ensures |s| > 0 && AllDigits(s)
  {
    if n < 10 then [DigitChar(n)] else ShowNat(n / 10) + [DigitChar(n % 10)]
  }

  /** `parseInt(s, 10)`: skip white space, read an optional sign, then the
      longest run of digits; NaN (None) when that run is empty. */
  function ParseInt(s: string): (r: Option<int>)
  {
    var t := TrimStart(s);
    var ds := DigitPrefix(Unsigned(t));
    if |ds| == 0 then None else Some(Signed(IsNegative(t), DigitsValue(ds)))
  }

  /** The text starts with a minus sign. */
  predicate IsNegative(t: string) {
    |t| > 0 && t[0] == '-'
  }

  /** The text after its sign, if it has one. */
  function Unsigned(t: string): string {
    if |t| > 0 && (t[0] == '-' || t[0] == '+') then t[1..] else t
  }

  /** The sign texts `parseInt` accepts before the digits. */
  predicate IsSign(sign: string) {
    sign == "" || sign == "+" || sign == "-"
  }

  function Signed(negative: bool, n: nat): int {
    if negative then 0 - n else n
  }

  lemma {:induction false} ShowNatValue(n: nat)
    ensures DigitsValue(ShowNat(n)) == n
    decreases n
  {
    var s := ShowNat(n);
    if n >= 10 {
      ShowNatValue(n / 10);
      assert s[..|s| - 1] == ShowNat(n / 10);
    }
  }

  lemma {:induction false} TrimSpaces(sp: string, t: string)
    requires forall i :: 0 <= i < |sp| ==> IsJsSpace(sp[i])
    requires |t| == 0 || !IsJsSpace(t[0])
    ensures TrimStart(sp + t) == t
    decreases |sp|
  {
    if |sp| > 0 {
      assert (sp + t)[1..] == sp[1..] + t;
      TrimSpaces(sp[1..], t);
    } else {
      assert sp + t == t;
    }
  }

  lemma {:induction false} DigitPrefixStops(ds: string, rest: string)
    requires AllDigits(ds)
    requires |rest| == 0 || !IsDigit(rest[0])
    ensures DigitPrefix(ds + rest) == ds
    decreases |ds|
  {
    if |ds| > 0 {
      assert (ds + rest)[1..] == ds[1..] + rest;
      DigitPrefixStops(ds[1..], rest);
    } else {
      assert ds + rest == rest;
    }
  }

  /** `parseInt` reads a digit string, leading zeros included, after any
      white space and an optional sign, and stops at the first non-digit. */
  lemma ParseIntReadsDigits(sp: string, sign: string, ds: string, rest: string)
    requires forall i :: 0 <= i < |sp| ==> IsJsSpace(sp[i])
    requires IsSign(sign)
    requires |ds| > 0 && AllDigits(ds)
    requires |rest| == 0 || !IsDigit(rest[0])
    ensures ParseInt(sp + sign + ds + rest) == Some(Signed(sign == "-", DigitsValue(ds)))
  {
    var body := ds + rest;
    var t := sign + body;
    var x := sp + sign + ds + rest;
    AppendFour(sp, sign, ds, rest);
    SignedText(sign, body);
    assert TrimStart(x) == t by {
      TrimSpaces(sp, t);
    }
    assert DigitPrefix(Unsigned(t)) == ds by {
      DigitPrefixStops(ds, rest);
    }
  }

  lemma AppendFour(a: string, b: string, c: string, d: string)
    ensures a + b + c + d == a + (b + (c + d))
  {
    var l := a + b + c + d;
    var r := a + (b + (c + d));
    assert |l| == |r|;
    forall i | 0 <= i < |l|
      ensures l[i] == r[i]
    {
      if i < |a| {
      } else if i < |a| + |b| {
      } else if i < |a| + |b| + |c| {
      } else {
      }
    }
  }

  /** A sign in front of text that starts with a digit is read as that sign
      and stripped; the text starts with no white space. */
  lemma SignedText(sign: string, body: string)
    requires IsSign(sign)
    requires |body| > 0 && IsDigit(body[0])
    ensures var t := sign + body;
      && (|t| == 0 || !IsJsSpace(t[0]))
      && Unsigned(t) == body
      && (IsNegative(t) <==> sign == "-")
  {
    var t := sign + body;
    if sign == "" {
      assert t == body;
    } else {
      assert t[0] == sign[0];
      assert t[1..] == body;
    }
  }

  /** `parseInt` reads back the decimal text of any integer, whatever white
      space precedes it and whatever non-digit text follows it. */
  lemma ParseIntReadsDecimal(sp: string, negative: bool, n: nat, rest: string)
    requires forall i :: 0 <= i < |sp| ==> IsJsSpace(sp[i])
    requires |rest| == 0 || !IsDigit(rest[0])
    ensures ParseInt(sp + (if negative then "-" else "") + ShowNat(n) + rest) == Some(Signed(negative, n))
  {
    var sign := if negative then "-" else "";
    ParseIntReadsDigits(sp, sign, ShowNat(n), rest);
    ShowNatValue(n);
  }

  /** `parseInt` is NaN exactly when no digit follows the white space and
      the optional sign. */
  lemma ParseIntNaN(s: string)
    ensures ParseInt(s).None? <==>
      var t := TrimStart(s);
      var body := if |t| > 0 && (t[0] == '-' || t[0] == '+') then t[1..] else t;
      |body| == 0 || !IsDigit(body[0])
  {
  }
}

=== FILE: listing_as_written.dfy ===
/** The listing handler as written compares `parentId` against
    `new ObjectId(parentId)` for every parent other than "0", while the
    upload handler stores `parentId` as the string the client sent. A
    MongoDB string never equals an ObjectId, so as written no folder's
    children can be listed. This module models that comparison and shows
    the discrepancy; the rest of the model lists by the stored string
    (FilesController.GetIndex). */
module ListingAsWritten {
  import opened Types
  import opened Session
  import opened Records
  import opened FilesController

  /** The BSON values that meet in the `parentId` filter. */
  datatype ParentValue = StringValue(s: string) | ObjectIdValue(hex: string)

  /** The upload handler stores the request's `parentId` unconverted. */
  function StoredParent(f: FileRecord): ParentValue {
    StringValue(f.parentId)
  }

  /** The listing handler converts every parent but "0" to an ObjectId. */
  function QueriedParent(parentId: Id): ParentValue {
    if parentId == Root then StringValue(Root) else ObjectIdValue(parentId)
  }

  /** `find({userId, parentId})` with the typed comparison the store makes. */
  function FindChildrenAsWritten(files: seq<FileRecord>, userId: Id, parentId: Id): (r: seq<FileRecord>)
    ensures forall f :: f in r <==>
      f in files && f.userId == userId && StoredParent(f) == QueriedParent(parentId)
    decreases |files|
  {
    if |files| == 0 then []
    else
      var f := files[0];
      (if f.userId == userId && StoredParent(f) == QueriedParent(parentId) then [f] else [])
      + FindChildrenAsWritten(files[1..], userId, parentId)
  }

  /** GET /files exactly as written. */
  function GetIndexAsWritten(st: Store, token: Option<string>, parentId: Option<string>, page: Option<string>)
    : (r: Outcome<seq<FileRecord>>)
    ensures Authenticate(st.sessions, token).None? <==> r == Fail(401, MsgUnauthorized)
  {
    match Authenticate(st.sessions, token)
    case None => Fail(401, MsgUnauthorized)
    case Some(userId) => ListPage(FindChildrenAsWritten(st.files, userId, ListingParent(parentId)), page)
  }

  /** As written, the filter matches nothing below the top level. */
  lemma {:induction false} AsWrittenNoChildren(files: seq<FileRecord>, userId: Id, parentId: Id)
    requires parentId != Root
    ensures FindChildrenAsWritten(files, userId, parentId) == []
    decreases |files|
  {
    if |files| > 0 {
      AsWrittenNoChildren(files[1..], userId, parentId);
    }
  }

  /** As written, listing any folder other than the top level is empty,
      whatever the store holds. */
  lemma AsWrittenNestedListingEmpty(st: Store, token: Option<string>, parentId: Option<string>, page: Option<string>)
    requires Authenticate(st.sessions, token).Some?
    requires ListingParent(parentId) != Root
    requires PageNumber(page) >= 0
    ensures GetIndexAsWritten(st, token, parentId, page) == Ok(200, [])
  {
    AsWrittenNoChildren(st.files, Authenticate(st.sessions, token).value, ListingParent(parentId));
  }

  /** At the top level the two comparisons agree. */
  lemma {:induction false} AsWrittenAgreesAtRoot(files: seq<FileRecord>, userId: Id)
    ensures FindChildrenAsWritten(files, userId, Root) == FindAll(files, ChildrenOf(userId, Root))
    decreases |files|
  {
    if |files| > 0 {
      AsWrittenAgreesAtRoot(files[1..], userId);
    }
  }

  /** Well-formed ObjectId texts for the counterexample: `new ObjectId`
      accepts each of them, so the handler reaches its filter. */
  const WitnessUser: Id := "5f1d7c3e9b1e8a0012340001"
  const WitnessFolder: Id := "5f1d7c3e9b1e8a0012345678"
  const WitnessChild: Id := "5f1d7c3e9b1e8a0012345679"

  /** A folder of one user holding one file: the handler as written lists
      nothing under that folder, the corrected listing lists the file. */
  lemma NestedListingCounterexample()
    ensures var folder := FileRecord(WitnessFolder, WitnessUser, "docs", Folder, false, Root, None);
      var child := FileRecord(WitnessChild, WitnessUser, "a.txt", File, false, WitnessFolder, Some("/tmp/files_manager/b1"));
      var st := Store(map[SessionKey("t") := WitnessUser], {WitnessUser}, [folder, child], map["/tmp/files_manager/b1" := [104, 105]]);
      && Valid(st)
      && GetIndexAsWritten(st, Some("t"), Some(WitnessFolder), None) == Ok(200, [])
      && GetIndex(st, Some("t"), Some(WitnessFolder), None) == Ok(200, [child])
  {
    var folder := FileRecord(WitnessFolder, WitnessUser, "docs", Folder, false, Root, None);
    var child := FileRecord(WitnessChild, WitnessUser, "a.txt", File, false, WitnessFolder, Some("/tmp/files_manager/b1"));
    var files := [folder, child];
    var st := Store(map[SessionKey("t") := WitnessUser], {WitnessUser}, files, map["/tmp/files_manager/b1" := [104, 105]]);
    assert Authenticate(st.sessions, Some("t")) == Some(WitnessUser);
    assert files[0].id == WitnessFolder && files[0].fileType == Folder;
    assert IsFolderId(files, WitnessFolder);
    assert files[1..] == [child];
    assert FindAll(files, ChildrenOf(WitnessUser, WitnessFolder)) == [child];
    AsWrittenNestedListingEmpty(st, Some("t"), Some(WitnessFolder), None);
  }
}

=== FILE: records.dfy ===
/** The `files` collection as the controller uses it: filter documents over
    `_id`, `userId` and `parentId`, `findOne` and `find` in natural
    (insertion) order, cursor skip/limit, and the `$set` of `isPublic`. */
module Records {
  import opened Types

  /** A filter document; an absent field does not constrain. */
  datatype Query = Query(id: Option<Id>, userId: Option<Id>, parentId: Option<Id>)

  predicate Matches(f: FileRecord, q: Query) {
    && (q.id.None? || f.id == q.id.value)
    && (q.userId.None? || f.userId == q.userId.value)
    && (q.parentId.None? || f.parentId == q.parentId.value)
  }

  function ById(id: Id): Query {
    Query(Some(id), None, None)
  }

  function ByIdAndOwner(id: Id, userId: Id): Query {
    Query(Some(id), Some(userId), None)
  }

  function OwnedBy(userId: Id): Query {
    Query(None, Some(userId), None)
  }

  function ChildrenOf(userId: Id, parentId: Id): Query {
    Query(None, Some(userId), Some(parentId))
  }

  /** Position of the record `findOne` returns: the first match in natural
      order. */
  function FirstMatch(files: seq<FileRecord>, q: Query): (r: Option<nat>)
    ensures r.Some? ==> r.value < |files| && Matches(files[r.value], q)
    ensures r.Some? ==> forall j :: 0 <= j < r.value ==> !Matches(files[j], q)
    ensures r.None? <==> forall j :: 0 <= j < |files| ==> !Matches(files[j], q)
    decreases |files|
  {
    if |files| == 0 then None
    else if Matches(files[0], q) then Some(0)
    else
      match FirstMatch(files[1..], q)
      case None => None
      case Some(k) => Some(k + 1)
  }

  function FindOne(files: seq<FileRecord>, q: Query): (r: Option<FileRecord>)
    ensures r.Some? ==> r.value in files && Matches(r.value, q)
    ensures r.None? <==> forall f :: f in files ==> !Matches(f, q)
  {
    match FirstMatch(files, q)
    case None => None
    case Some(i) => Some(files[i])
  }

  /** The records `find` returns, in natural order. */
  function FindAll(files: seq<FileRecord>, q: Query): (r: seq<FileRecord>)
    ensures forall f :: f in r <==> f in files && Matches(f, q)
    ensures SubsequenceOf(r, files)
    ensures |r| <= |files|
    decreases |files|
  {
    if |files| == 0 then []
    else
      var head := if Matches(files[0], q) then [files[0]] else [];
      var rest := FindAll(files[1..], q);
      FindAllStep(files, q, head, rest);
      head + rest
  }

  lemma FindAllStep(files: seq<FileRecord>, q: Query, head: seq<FileRecord>, rest: seq<FileRecord>)
    requires |files| > 0
    requires head == if Matches(files[0], q) then [files[0]] else []
    requires forall f :: f in rest <==> f in files[1..] && Matches(f, q)
    requires SubsequenceOf(rest, files[1..])
    ensures forall f :: f in head + rest <==> f in files && Matches(f, q)
    ensures SubsequenceOf(head + rest, files)
  {
    assert files == [files[0]] + files[1..];
    SubsequenceStep(files, q, head, rest);
  }

  lemma SubsequenceStep(files: seq<FileRecord>, q: Query, head: seq<FileRecord>, rest: seq<FileRecord>)
    requires |files| > 0
    requires head == if Matches(files[0], q) then [files[0]] else []
    requires forall f :: f in rest ==> Matches(f, q)
    requires SubsequenceOf(rest, files[1..])
    ensures SubsequenceOf(head + rest, files)
  {
    if head != [] {
      assert (head + rest)[0] == files[0];
      assert (head + rest)[1..] == rest;
    } else {
      assert head + rest == rest;
      if |rest| > 0 {
        assert Matches(rest[0], q);
        assert rest[0] != files[0];
      }
    }
  }

  /** `find` keeps every matching record as often as the collection holds
      it, and no other record. */
  lemma {:induction false} FindAllCounts(files: seq<FileRecord>, q: Query, f: FileRecord)
    ensures multiset(FindAll(files, q))[f] == if Matches(f, q) then multiset(files)[f] else 0
    decreases |files|
  {
    if |files| > 0 {
      FindAllCounts(files[1..], q, f);
      assert files == [files[0]] + files[1..];
      var head := if Matches(files[0], q) then [files[0]] else [];
      assert FindAll(files, q) == head + FindAll(files[1..], q);
      assert multiset(files) == multiset([files[0]]) + multiset(files[1..]);
      assert multiset(FindAll(files, q)) == multiset(head) + multiset(FindAll(files[1..], q));
    }
  }

  /** `sub` is `xs` with some elements left out and the rest kept in order. */
  predicate SubsequenceOf<T(==)>(sub: seq<T>, xs: seq<T>)
    decreases |xs|
  {
    if |sub| == 0 then true
    else if |xs| == 0 then false
    else if sub[0] == xs[0] then SubsequenceOf(sub[1..], xs[1..])
    else SubsequenceOf(sub, xs[1..])
  }

  /** Cursor `.skip(skip).limit(limit)`: the window of at most `limit`
      elements starting at position `skip`. */
  function SkipLimit<T>(xs: seq<T>, skip: nat, limit: nat): (r: seq<T>)
    ensures |r| <= limit
    ensures skip <= |xs| ==> |r| == if |xs| - skip < limit then |xs| - skip else limit
    ensures skip > |xs| ==> r == []
    ensures forall i :: 0 <= i < |r| ==> skip + i < |xs| && r[i] == xs[skip + i]
  {
    if skip >= |xs| then []
    else if |xs| - skip < limit then xs[skip..]
    else xs[skip..skip + limit]
  }

  /** `updateOne({_id: id}, {$set: {isPublic: flag}})`: the first record with
      that id gets the flag; nothing else changes. */
  function SetPublicById(files: seq<FileRecord>, id: Id, flag: bool): (r: seq<FileRecord>)
    ensures |r| == |files|
    ensures forall i :: 0 <= i < |files| ==>
      r[i] == files[i] || (files[i].id == id && r[i] == files[i].(isPublic := flag))
    ensures forall i :: 0 <= i < |files| ==> r[i].(isPublic := files[i].isPublic) == files[i]
    ensures (forall f :: f in files ==> f.id != id) ==> r == files
    ensures FirstMatch(files, ById(id)).Some? ==> r[FirstMatch(files, ById(id)).value].isPublic == flag
  {
    match FirstMatch(files, ById(id))
    case None => files
    case Some(i) => files[i := files[i].(isPublic := flag)]
  }

  /** Appending a record leaves earlier first matches where they were. */
  lemma {:induction false} FirstMatchAppend(files: seq<FileRecord>, rec: FileRecord, q: Query)
    ensures FirstMatch(files + [rec], q) ==
      if FirstMatch(files, q).Some? then FirstMatch(files, q)
      else if Matches(rec, q) then Some(|files|)
      else None
    decreases |files|
  {
    if |files| > 0 {
      assert (files + [rec])[0] == files[0];
      assert (files + [rec])[1..] == files[1..] + [rec];
      FirstMatchAppend(files[1..], rec, q);
    }
  }

  /** `find` over an appended collection. */
  lemma {:induction false} FindAllAppend(files: seq<FileRecord>, rec: FileRecord, q: Query)
    ensures FindAll(files + [rec], q) == FindAll(files, q) + (if Matches(rec, q) then [rec] else [])
    decreases |files|
  {
    if |files| == 0 {
      assert files + [rec] == [rec];
    } else {
      assert (files + [rec])[1..] == files[1..] + [rec];
      FindAllAppend(files[1..], rec, q);
    }
  }

  /** The owner-scoped `findOne` sees only the caller's records: it is the
      id lookup inside the caller's own sub-collection. */
  lemma {:induction false} OwnedLookupSeesOnlyOwnRecords(files: seq<FileRecord>, id: Id, userId: Id)
    ensures FindOne(files, ByIdAndOwner(id, userId)) == FindOne(FindAll(files, OwnedBy(userId)), ById(id))
    decreases |files|
  {
    if |files| > 0 {
      OwnedLookupSeesOnlyOwnRecords(files[1..], id, userId);
      var own := FindAll(files, OwnedBy(userId));
      var rest := FindAll(files[1..], OwnedBy(userId));
      if Matches(files[0], OwnedBy(userId)) {
        assert own == [files[0]] + rest;
        assert own[1..] == rest;
      } else {
        assert own == rest;
      }
    }
  }

  /** Updating a record's flag never changes what a filter on id, owner and
      parent matches. */
  lemma SetPublicKeepsMatches(files: seq<FileRecord>, id: Id, flag: bool, q: Query)
    ensures forall i :: 0 <= i < |files| ==>
      (Matches(SetPublicById(files, id, flag)[i], q) <==> Matches(files[i], q))
    ensures FirstMatch(SetPublicById(files, id, flag), q) == FirstMatch(files, q)
  {
    var r := SetPublicById(files, id, flag);
    assert forall i :: 0 <= i < |files| ==>
      r[i].id == files[i].id && r[i].userId == files[i].userId && r[i].parentId == files[i].parentId;
    FirstMatchEquivalent(r, files, q);
  }

  lemma {:induction false} FirstMatchEquivalent(a: seq<FileRecord>, b: seq<FileRecord>, q: Query)
    requires |a| == |b|
    requires forall i :: 0 <= i < |a| ==> (Matches(a[i], q) <==> Matches(b[i], q))
    ensures FirstMatch(a, q) == FirstMatch(b, q)
    decreases |a|
  {
    if |a| > 0 {
      FirstMatchEquivalent(a[1..], b[1..], q);
    }
  }

  /** Listing the caller's children reads only the caller's records. */
  lemma {:induction false} ChildrenAmongOwnRecords(files: seq<FileRecord>, userId: Id, parentId: Id)
    ensures FindAll(files, ChildrenOf(userId, parentId))
         == FindAll(FindAll(files, OwnedBy(userId)), ChildrenOf(userId, parentId))
    decreases |files|
  {
    if |files| > 0 {
      ChildrenAmongOwnRecords(files[1..], userId, parentId);
      var own := FindAll(files, OwnedBy(userId));
      var rest := FindAll(files[1..], OwnedBy(userId));
      if Matches(files[0], OwnedBy(userId)) {
        assert own == [files[0]] + rest;
        assert own[1..] == rest;
      } else {
        assert own == rest;
      }
    }
  }
}

=== FILE: session.dfy ===
/** The token check every protected files handler starts with: the `x-token`
    header names a session-cache key `auth_<token>` whose value is the
    caller's user id. */
module Session {
  import opened Types

  const KeyPrefix: string := "auth_"

  function SessionKey(token: string): string {
    KeyPrefix + token
  }

  /** The caller's user id, or None when the request must be answered 401:
      the header is absent or empty, the key is not cached, or the cached
      id is empty. */
  function Authenticate(sessions: map<string, Id>, token: Option<string>): (r: Option<Id>)
    ensures r.Some? <==> Truthy(token) && SessionKey(token.value) in sessions
                          && sessions[SessionKey(token.value)] != ""
    ensures r.Some? ==> r.value != "" && r.value == sessions[SessionKey(token.value)]
  {
    match token
    case None => None
    case Some(t) =>
      if t == "" then None
      else
        var key := SessionKey(t);
        if key in sessions && sessions[key] != "" then Some(sessions[key]) else None
  }

  /** Distinct tokens use distinct cache keys. */
  lemma SessionKeyInjective(a: string, b: string)
    ensures SessionKey(a) == SessionKey(b) ==> a == b
  {
    if SessionKey(a) == SessionKey(b) {
      assert a == SessionKey(a)[|KeyPrefix|..];
      assert b == SessionKey(b)[|KeyPrefix|..];
    }
  }

  /** A token resolves to the user id last cached under its key, and caching
      one token leaves every other token's resolution unchanged. */
  lemma ResolveAfterCache(sessions: map<string, Id>, token: string, userId: Id, other: Option<string>)
    requires token != "" && userId != ""
    ensures Authenticate(sessions[SessionKey(token) := userId], Some(token)) == Some(userId)
    ensures other != Some(token) ==>
      Authenticate(sessions[SessionKey(token) := userId], other) == Authenticate(sessions, other)
  {
    if other.Some? && other != Some(token) {
      SessionKeyInjective(other.value, token);
    }
  }
}

=== FILE: types.dfy ===
/** Shared vocabulary of the files manager: identifiers, file records, the
    three abstract stores the controller talks to, and the HTTP-style outcome
    every handler answers with. */
module Types {

  datatype Option<+T> = None | Some(value: T)

  newtype byte = x: int | 0 <= x < 256
  type Bytes = seq<byte>

  /** Record and user identifiers. The source converts them to and from
      MongoDB ObjectIds; here they are one abstract string type. */
  type Id = string

  /** Location of a saved blob (the source's `localPath`). */
  type Path = string

  /** The parent id that stands for "top level". */
  const Root: Id := "0"

  /** Number of records per listing page. */
  const PageSize: nat := 20

  /** The `type` values a file record may carry, in the source's order. */
  const AcceptedTypes: seq<string> := ["folder", "file", "image"]

  datatype FileType = Folder | File | Image

  function TypeName(t: FileType): string {
    match t
    case Folder => "folder"
    case File => "file"
    case Image => "image"
  }

  /** Reads a request's `type` field; only the accepted names parse. */
  function ParseType(s: string): (r: Option<FileType>)
    ensures r.Some? <==> s in AcceptedTypes
    ensures r.Some? ==> TypeName(r.value) == s
  {
    if s == "folder" then Some(Folder)
    else if s == "file" then Some(File)
    else if s == "image" then Some(Image)
    else None
  }

  /** A file or folder document of the `files` collection. `localPath` is the
      blob holding the content of a non-folder. */
  datatype FileRecord = FileRecord(
    id: Id,
    userId: Id,
    name: string,
    fileType: FileType,
    isPublic: bool,
    parentId: Id,
    localPath: Option<Path>)

  /** The abstract stores: the session cache (`auth_<token>` to user id), the
      ids of the `users` collection, the `files` collection in insertion
      order, and the blob directory. */
  datatype Store = Store(
    sessions: map<string, Id>,
    users: set<Id>,
    files: seq<FileRecord>,
    blobs: map<Path, Bytes>)

  /** An HTTP answer: a status with a payload, or a status with an error
      message (the source's `{ error: ... }` body). */
  datatype Outcome<+T> = Ok(status: int, value: T) | Fail(status: int, message: string)

  /** A handler that may write answers with its outcome and the new stores. */
  datatype Step<+T> = Step(outcome: Outcome<T>, store: Store)

  /** JavaScript truthiness of an optional string: absent and "" are falsy. */
  predicate Truthy(s: Option<string>) {
    s.Some? && s.value != ""
  }

  /** Every record satisfies the shape the upload handler gives it:
      distinct ids none of which is the root sentinel, an existing owner, a
      parent that is the root or an existing folder, and a blob, under a
      non-empty path, exactly when the record is not a folder. */
  predicate Valid(st: Store) {
    && (forall i, j :: 0 <= i < j < |st.files| ==> st.files[i].id != st.files[j].id)
    && (forall i :: 0 <= i < |st.files| ==> WellFormed(st, st.files[i]))
  }

  predicate WellFormed(st: Store, f: FileRecord) {
    && f.id != Root
    && f.userId in st.users
    && (f.parentId == Root || IsFolderId(st.files, f.parentId))
    && (f.fileType == Folder <==> f.localPath.None?)
    && (f.localPath.Some? ==> Truthy(f.localPath) && f.localPath.value in st.blobs)
  }

  predicate IsFolderId(files: seq<FileRecord>, id: Id) {
    exists k :: 0 <= k < |files| && files[k].id == id && files[k].fileType == Folder
  }

  lemma TypeNameRoundTrip(t: FileType)
    ensures ParseType(TypeName(t)) == Some(t)
  {
  }
}
